=== FILE: README.md ===
# Weighted roulette: a Dafny model

A model of the logic inside a small single-page app for weighted roulette
wheels. A user keeps a list of named wheels ("roulettes"). Each wheel holds
weighted items. The user edits the wheels and spins one of them, and the item
that stops under the pointer wins.

The model covers three parts of the app:

- **The wheel** (`RouletteWheel`). The total weight. The split of a full circle
  into slices proportional to the weights. The spin: a busy flag, a random
  five-to-six-turn rotation, and a cubic ease-out over three seconds. The
  normalisation of the final rotation and the shift for the bottom pointer.
  The cumulative-angle `find` that picks the winner.
- **The editor** (`RouletteEditor`). Adding, removing and updating items with
  a partial record, the random colour of a new item, and `handleSave`.
- **The page** (`App`). The initial load with its default roulette.
  Creating, saving, renaming, deleting and selecting roulettes, together with
  the selection, the editor panel, the name-editing flag and the last result.

Numbers are exact Dafny `real`s. JavaScript's `%` is written out as a
truncated-division remainder. Each React state update becomes a pure function
from the state before to the state after. Inputs the app gets from outside
become parameters:

- the elapsed animation time (`elapsed`);
- `Math.random()` (`random`, in [0, 1));
- `crypto.randomUUID()` (`freshId`, which must be unlike every id in the state);
- `Math.PI / 180` (`radiansPerDegree`);
- the parsed contents of storage (`stored`).

Files, one module each: `wrappers.dfy` (Option), `seqs.dfy` (filter and
replace by key, sums), `types.dfy` (the two records), `angles.dfy`,
`wheel.dfy`, `spin.dfy`, `colors.dfy`, `editor.dfy`, `app.dfy`.

## Model

| member | source | states |
|---|---|---|
| Seqs.Without | src/App.tsx:57 | filtering by id keeps exactly the entries with a different id, and no others |
| Seqs.ReplaceWhere | src/App.tsx:43-45 | the id-matched `map` keeps the length, leaves entries with other ids untouched, and rewrites every matching entry |
| Angles.JsRem | src/components/RouletteWheel.tsx:89 | JavaScript's `% 360` gives a remainder of less than one turn with the dividend's sign, a whole number of turns from the dividend |
| Angles.Normalize | src/components/RouletteWheel.tsx:89 | `(r % 360 + 360) % 360` lies in [0, 360) and points the same way as `r` for every sign of `r` |
| Angles.NormalizeIsFloorMod | src/components/RouletteWheel.tsx:89 | the double JavaScript remainder equals the mathematical floored remainder modulo 360 |
| Angles.NormalizeFixesTurn | src/components/RouletteWheel.tsx:89 | normalising an angle already in [0, 360) leaves it unchanged |
| Angles.PointerAngle | src/components/RouletteWheel.tsx:90 | `(360 - n + 90) % 360` of a normalised angle lies in [0, 360) and is `90 - n` up to whole turns |
| Angles.FinalAngleReadsPointer | src/components/RouletteWheel.tsx:89-90 | the angle read at the end of a spin lies in [0, 360) and equals `90 - rotation` reduced modulo 360 |
| Angles.FinalAnglePeriodic | src/components/RouletteWheel.tsx:89-90 | one more full turn of the wheel does not change the angle read under the pointer |
| Wheel.Reduce | src/components/RouletteWheel.tsx:15 | the front-to-back `reduce` over the weights returns the seed plus the sum of all weights |
| Wheel.TotalWeight | src/components/RouletteWheel.tsx:15 | `totalWeight` is the sum of all item weights |
| Wheel.TotalWeightPositive | src/components/RouletteWheel.tsx:15 | a non-empty wheel with positive weights has a positive total |
| Wheel.CumAngleStep | src/components/RouletteWheel.tsx:94-95 | adding one item's slice `full * w / T` to the running angle gives the running angle of the prefix one item longer |
| Wheel.SliceAnglesSum | src/components/RouletteWheel.tsx:32 | when the total weight is non-zero the slices `full * w / T` add up to exactly `full` (2π for the drawing, 360 for the lookup) |
| Wheel.LayoutFrom | src/components/RouletteWheel.tsx:31-55 | the drawing loop gives slice `j` the arc from the rotation plus the running angle before it to the rotation plus the running angle after it |
| Wheel.LayoutTilesCircle | src/components/RouletteWheel.tsx:26-55 | the drawn slices tile one turn: the first starts at the rotation, each starts where the previous one ends, and the last ends one full circle later |
| Wheel.LayoutSliceWidths | src/components/RouletteWheel.tsx:32-36 | every drawn arc is as wide as its item's share of the total weight |
| Wheel.FindFrom | src/components/RouletteWheel.tsx:91-97 | the `find` with its closure accumulator returns the first item from the start point whose cumulative angle reaches the pointer angle, or nothing when none does |
| Wheel.Winner | src/components/RouletteWheel.tsx:93-97 | the winner is the first item whose cumulative angle is at least the pointer angle, and no earlier item's cumulative angle reaches it; there is no winner only for a zero total or when no item reaches the angle |
| Wheel.WinnerExists | src/components/RouletteWheel.tsx:93-99 | with a non-zero total weight every angle up to 360 has a winner, so the `winner &&` guard never fails |
| Wheel.WinnerInSlice | src/components/RouletteWheel.tsx:93-97 | a non-negative angle lies inside the winner's slice laid out from 0 |
| Wheel.WinningItem | src/components/RouletteWheel.tsx:93-100 | the item reported is the first item whose running angle reaches the pointer angle; with a non-zero total every angle up to 360 reports one; nothing is reported only for a zero total or when no item reaches the angle |
| Wheel.ExampleRunningAngles | src/components/RouletteWheel.tsx:94-95 | for weights 1, 1, 2 the total is 4 and the running angles are 90, 180, 360 |
| Wheel.ExampleWinners | src/components/RouletteWheel.tsx:96 | for weights 1, 1, 2 the angles 0 and 90 pick item 1, 91 and 180 pick item 2, and 181 picks item 3: a boundary angle goes to the earlier item |
| Spin.TotalRotation | src/components/RouletteWheel.tsx:70 | a spin turns at least five and less than six full turns |
| Spin.Progress | src/components/RouletteWheel.tsx:75 | progress is at most 1, is exactly 1 once the 3000 ms have passed and not before, and is never negative for non-negative elapsed time |
| Spin.EaseOut | src/components/RouletteWheel.tsx:78 | the cubic ease-out maps 0 to 0 and 1 to 1 and keeps [0, 1] inside [0, 1] |
| Spin.EaseOutMonotone | src/components/RouletteWheel.tsx:78 | the ease-out never decreases on [0, 1] |
| Spin.CurrentRotation | src/components/RouletteWheel.tsx:79 | the frame's rotation starts at the start angle, stays between start and start + total, and equals start + total from the end of the duration on |
| Spin.CurrentRotationMonotone | src/components/RouletteWheel.tsx:73-79 | later frames never show the wheel turned back |
| Spin.Spin | src/components/RouletteWheel.tsx:64-70 | pressing spin while spinning changes nothing and starts no animation; otherwise the flag is set, the rotation is untouched, and a five-to-six-turn animation starts from the current rotation and keeps the items shown at the press |
| Spin.Frame | src/components/RouletteWheel.tsx:73-102 | a frame before the end moves the wheel and keeps the flag; the final frame rests on start + total, clears the flag, and reports the item under the pointer among the items the wheel draws |
| Spin.FrameReportsDrawnWinner | src/components/RouletteWheel.tsx:26-100 | with a non-zero total, the final frame reports the first-reaching item of the drawn items, and that item's arc on the resting wheel covers the pointer's direction |
| Spin.FinishedSpinHasWinner | src/components/RouletteWheel.tsx:99-101 | a finished spin over a non-zero total weight always reports a winner |
| Spin.WinnerDrawnUnderPointer | src/components/RouletteWheel.tsx:26-97 | on a wheel drawn from the same items the winner is looked up in, the winner's arc covers the bottom pointer's direction, up to whole turns |
| Spin.NextSpinStartsAtRest | src/components/RouletteWheel.tsx:69 | with the rotation kept in degrees, the first frame of a new spin draws the wheel exactly where it rested |
| Spin.FrameAsWritten | src/components/RouletteWheel.tsx:64-102 | as written, a frame before the end stores the eased angle converted to radians and keeps the flag; the final frame stores start + total in radians, clears the flag, and reports the item under the pointer for start + total read in degrees, looked up in the items captured when the button was pressed |
| Spin.AsWrittenReportsCapturedItem | src/components/RouletteWheel.tsx:64-100 | as written, a finished spin pressed on one list of items reports an item of that list even when the wheel now draws a list with none of them |
| Spin.AsWrittenRest | src/components/RouletteWheel.tsx:81-86 | as written, a finished spin leaves start + total, converted to radians, in the state |
| Spin.AsWrittenFirstFrame | src/components/RouletteWheel.tsx:69-81 | as written, a spin's first frame stores its start angle converted to radians once more |
| Spin.SecondSpinAsWritten | src/components/RouletteWheel.tsx:64-81 | as written, a five-turn spin from rest leaves `1800 * k` radians, and the next spin's first frame draws `1800 * k` converted once more |
| Spin.AsWrittenSecondSpinJumps | src/components/RouletteWheel.tsx:69-81 | as written, after a five-turn first spin from rest, for any degree-to-radian factor below 0.2 (π/180 among them), the next spin's first frame is drawn more than four and less than five turns away from where the wheel rested, so the wheel visibly jumps |
| Colors.ToHex | src/components/RouletteEditor.tsx:19 | `toString(16)` writes at least one hex digit, all of them lower case, and no leading zero |
| Colors.HexRoundTrip | src/components/RouletteEditor.tsx:19 | reading back the hex digits gives the number again |
| Colors.ToHexShort | src/components/RouletteEditor.tsx:19 | a number below `16^k` has at most `k` hex digits |
| Colors.ColorIndex | src/components/RouletteEditor.tsx:19 | `Math.floor(random * 16777215)` lies below 16777215 |
| Colors.RandomColorAsWritten | src/components/RouletteEditor.tsx:19 | the colour as written is `#` followed by digits that read back as the drawn index |
| Colors.AsWrittenColorTooShort | src/components/RouletteEditor.tsx:19 | every index below `0x100000` yields a string that is not a six-digit colour |
| Colors.RandomColor | src/components/RouletteEditor.tsx:19 | the zero-padded colour is always `#` and six lower-case hex digits, and it reads back as the drawn index |
| Editor.AddItem | src/components/RouletteEditor.tsx:14-22 | adding grows the list by exactly one; the old list is the prefix; the new last item has the fresh id, the default label, weight 1, and a six-digit colour that reads back as the drawn index; unique ids stay unique |
| Editor.RemoveItem | src/components/RouletteEditor.tsx:24-26 | after removal no item carries the id, every item with another id is kept, and unique ids stay unique |
| Editor.RemoveItemKeepsOrder | src/components/RouletteEditor.tsx:25 | removal distributes over concatenation, so the kept items keep their relative order |
| Editor.RemoveItemAbsentIdempotent | src/components/RouletteEditor.tsx:25 | removing an absent id is the identity, and removing twice equals removing once |
| Editor.RemoveItemDropsOne | src/components/RouletteEditor.tsx:25 | with unique ids, removing an item's id drops exactly that item |
| Editor.MergeFields | src/components/RouletteEditor.tsx:30 | `{ ...item, ...updates }` takes present fields from the update and keeps absent ones; the empty update is the identity; merging twice equals merging once |
| Editor.UpdateItem | src/components/RouletteEditor.tsx:28-32 | updating keeps length and order, leaves items with other ids unchanged, merges the matching ones, and keeps every id when the update has no `id` |
| Editor.UpdateItemIdentity | src/components/RouletteEditor.tsx:28-32 | an empty update, or an update of an absent id, leaves the list unchanged |
| Editor.UpdateItemIdempotent | src/components/RouletteEditor.tsx:28-32 | applying the same update twice equals applying it once |
| Editor.HandleSave | src/components/RouletteEditor.tsx:34-40 | the saved roulette keeps the original id and takes the edited name and items |
| Editor.SaveUnedited | src/components/RouletteEditor.tsx:11-40 | opening the editor and saving without edits gives the same roulette back |
| App.DefaultRoulette | src/App.tsx:7-15 | the default roulette has the given id, the default name, and three items of weight 1 with distinct ids |
| App.Load | src/App.tsx:18-23 | with nothing stored the collection is the default roulette alone and it is selected; a stored list is used as is; the first entry is selected; the editor and the name field start closed and there is no result; only an empty stored list leaves no selection |
| App.LoadValid | src/App.tsx:18-23 | the default start, or a non-empty stored list with unique ids, gives a valid state |
| App.MountEditor | src/App.tsx:168-174 | a closed panel has no draft; a draft survives only while the same roulette stays selected; when the selection changes or no draft exists, the editor opens on the selection |
| App.MountEditorAsWritten | src/App.tsx:168-174 | as written, an open editor keeps its draft whatever roulette is selected |
| App.AddNewRoulette | src/App.tsx:32-40 | creating appends exactly one roulette, with the fresh id and the default name and items; the old list is the prefix; the new roulette is selected; the editor opens on it; the name field and the result stay; validity is kept |
| App.AddNewRouletteAsWritten | src/App.tsx:32-40 | as written, creating while the editor is open keeps the old draft, and with the panel closed opens it on the new roulette; the collection and selection are as in `AddNewRoulette`; the name field and the result stay |
| App.SaveRoulette | src/App.tsx:42-48 | saving keeps the length and order, replaces only entries whose id matches, selects the saved roulette and closes the editor |
| App.SaveRouletteValid | src/App.tsx:42-48 | saving a roulette whose id is in the collection keeps the state valid |
| App.SaveFromEditor | src/App.tsx:170-173 | the editor's save selects the selection's id with the draft's name and items, and keeps the state valid |
| App.SaveAfterAddNewKeepsDefault | src/App.tsx:32-48 | saving right after creating, without edits, leaves the old collection followed by the new default roulette |
| App.AsWrittenAddNewSavesStaleDraft | src/App.tsx:32-40 | as written, creating while editing and then saving writes the old draft, not the default, under the new id |
| App.UpdateRouletteName | src/App.tsx:50-54 | renaming changes only the selection's name (id and items stay); every entry with the selection's id becomes the renamed selection, and the others stay, even when the selection already differs from its entry after a keystroke; in a valid state only the selected entry is renamed; the name field closes; the result stays; validity is kept |
| App.DeleteRoulette | src/App.tsx:56-62 | deleting keeps exactly the entries with other ids; a deleted selection becomes the new first entry, and an open editor reopens on it; otherwise the selection and editor stay; the panel stays open or closed, and the name field and result stay; there is no selection left only when the selection is deleted and every entry had its id |
| App.DeleteRouletteAsWritten | src/App.tsx:56-62 | as written, deletion changes the collection and selection as `DeleteRoulette` does but keeps the editor's draft unchanged; the name field and the result stay |
| App.AsWrittenDeleteThenSaveOverwrites | src/App.tsx:56-61 | as written, deleting the selected roulette while editing and then saving writes the deleted roulette's draft name and items under the id of the new first entry |
| App.SaveAfterDeleteKeepsEntries | src/App.tsx:56-61 | with the editor keyed by the selection, deleting the selected roulette while editing and then saving without edits leaves the remaining roulettes unchanged |
| App.DeleteKeepsOrder | src/App.tsx:57 | the entries deletion keeps stay in their relative order |
| App.DeleteGuarded | src/App.tsx:93 | with more than one roulette and unique ids, deleting any entry succeeds, drops exactly one roulette, and leaves a non-empty collection whose selection is one of its entries |
| App.DeleteLastLosesSelection | src/App.tsx:56-61 | deleting the only roulette leaves nothing to select, which is why the guard is needed |
| App.SelectRoulette | src/App.tsx:68-72 | selecting sets the selection, closes the editor, clears the result, and keeps validity for a chosen entry |
| App.SpinEnd | src/App.tsx:64-66 | the end of a spin records the winner as the result; the collection, selection, editor and name field stay as they were |
| App.ToggleEditing | src/App.tsx:146 | the settings button flips the editor panel, and opening it starts a draft of the selection; the collection, selection, name field and result stay |

## Left out

- Canvas drawing, text placement and the JSX are left out. They are display
  code. Only the arcs the drawing loop computes are modelled (`Wheel.Layout`).
- `requestAnimationFrame` and `performance.now` are left out. The animation
  is a pure function of the elapsed time, and any sequence of frames is a
  sequence of `Spin.Frame` calls.
- `localStorage`, `JSON.parse` and `JSON.stringify` are left out. They are
  browser I/O and a library serialiser. `App.Load` takes the parsed
  collection as an `Option`, where `None` stands for "nothing stored" (null or
  the empty string). Malformed JSON and the write-back effect are not
  modelled, so neither is a storage round trip.
- IEEE-754 floating point is left out. Weights and angles are exact reals, so
  "the slices sum to 360" and "a winner always exists" hold only in that
  idealisation. Rounding in the running sum could, in principle, leave the
  last cumulative angle just below a pointer angle near 360.
- Wheel.Winner: with a zero total the source divides by zero. The model
  returns no winner there. That matches the source for an empty wheel and for
  all-zero weights. Mixed-sign weights summing to zero give `Infinity` in the
  source and are not modelled.
- Wheel.Winner is stated for any non-zero total. Negative weights, which the
  editor's number input allows, are covered by the same first-reaching
  definition.
- The editor's name field (`setName`), the name field's `onChange`, and the
  button that opens the name field only wire inputs to state. They are not
  modelled. Each keystroke in the name field (src/App.tsx:127) replaces the
  selection with a renamed copy that is not in the collection, so `App.Valid`
  is false from the first keystroke until `App.UpdateRouletteName` runs on
  blur or Enter. The model's operations start from the states before and
  after such an edit.
- Spin.Frame: models the corrected behaviour described under Findings: it
  keeps the rotation in degrees, and it looks the winner up in the items the
  wheel draws. The code as written is `Spin.FrameAsWritten`.
- App.MountEditor: models the corrected, keyed editor described under
  Findings. The code as written is `App.MountEditorAsWritten`.
- App.AddNewRoulette: uses the keyed editor (`App.MountEditor`). So when the
  panel is already open, it opens a fresh draft of the new roulette. The
  code as written keeps the old draft (`App.AddNewRouletteAsWritten`).
- App.DeleteRoulette: uses the keyed editor. When the selection is deleted
  while the panel is open, it reopens the editor on the new first entry. The
  code as written keeps the deleted roulette's draft
  (`App.DeleteRouletteAsWritten`).
- Editor.AddItem: gives the new item the zero-padded colour
  (`Colors.RandomColor`). For indices below `0x100000` the code as written
  stores a shorter string (`Colors.RandomColorAsWritten`). Both read back as
  the same index.
- Wheel.Layout: requires a non-zero total weight. That excludes the empty
  wheel, for which the drawing loop draws no slices, and all-zero weights,
  for which the source divides by zero.
- `RouletteWheel`'s `rotation` state is shared with the drawing through
  `Spin.DisplayedRadians`. π is a parameter because Dafny reals have no π.

## Findings

| source | as written | input that shows it | evidently intended | confidence | as-written member | corrected member |
|---|---|---|---|---|---|---|
| src/components/RouletteWheel.tsx:69-81 | each frame stores `currentRotation * (Math.PI / 180)` (radians) in `rotation`, and the next spin reads `rotation` back as degrees in `startRotation` | a first spin with `Math.random()` = 0 rests at 1800·π/180 rad; the first frame of the second spin draws 1800·(π/180)² rad, about 4.91 turns away, so the wheel snaps to a different position | a new spin starts from the angle where the wheel rests | high; not executed | Spin.AsWrittenSecondSpinJumps | Spin.NextSpinStartsAtRest |
| src/components/RouletteWheel.tsx:64-97 | the `animate` closure looks the winner up in the `items` and `totalWeight` of the render in which spin was pressed, while the canvas redraws from the current `items` prop; the roulette tabs, "new" and the editor's save stay enabled during the spin | press spin on roulette A, then select roulette B with other items within the three seconds: the wheel draws B's slices, and `handleSpinEnd` stores an item of A as the result, after `selectRoulette` had cleared it | the reported item is the one drawn under the pointer | medium; not executed | Spin.AsWrittenReportsCapturedItem | Spin.FrameReportsDrawnWinner |
| src/App.tsx:168-174 | `RouletteEditor` has no `key`, so its `useState` draft survives `addNewRoulette` while the panel is open | while editing roulette A (draft named "A"), press "new": the panel still shows A's draft, and saving writes name "A" and A's items under the new id | the editor opens on the new roulette, so an immediate save stores the default roulette | medium; not executed | App.AsWrittenAddNewSavesStaleDraft | App.SaveAfterAddNewKeepsDefault |
| src/App.tsx:56-61 | deleting the selected roulette does not remount the unkeyed `RouletteEditor`, so its draft of the deleted roulette stays open | with roulettes A (selected, being edited) and B, delete A: B becomes the selection, and saving writes A's draft name and items under B's id, overwriting B | the editor reopens on the new selection, so a save without edits leaves B as it was | medium; not executed | App.AsWrittenDeleteThenSaveOverwrites | App.SaveAfterDeleteKeepsEntries |
| src/components/RouletteEditor.tsx:19 | `Math.floor(Math.random()*16777215).toString(16)` is not zero-padded | any random value whose index is below `0x100000` (about one in sixteen), for example 0, gives "#0", which is not a six-digit colour: the colour input shows black, and for one, two or five digits the canvas keeps its previous fill style | a six-digit `#rrggbb` colour (`padStart(6, "0")`) | high; not executed | Colors.AsWrittenColorTooShort | Colors.RandomColor |

=== FILE: angles.dfy ===
/** Angle arithmetic of the wheel, in degrees. JavaScript's `%` (truncated
    division: the remainder takes the sign of the dividend) is written out
    over exact reals; every modulus the wheel uses is one full turn. */
module Angles {

  /** Degrees in one full turn of the wheel. */
  const Turn: real := 360.0

  /** `x` is a whole number. */
  predicate IsWhole(x: real)
  {
    x.Floor as real == x
  }

  /** `a` and `b` differ by a whole number of turns. */
  predicate SameDirection(a: real, b: real)
  {
    IsWhole((a - b) / Turn)
  }

  /** Rounding toward zero, the quotient JavaScript's `%` is based on. */
  function Trunc(x: real): (n: int)
  {
    if x >= 0.0 then x.Floor else -((-x).Floor)
  }

  /** JavaScript's `a % 360`. */
  function JsRem(a: real): (r: real)
    ensures 0.0 <= a ==> 0.0 <= r < Turn
    ensures a <= 0.0 ==> -Turn < r <= 0.0
    ensures SameDirection(a, r)
  {
    a - Turn * Trunc(a / Turn) as real
  }

  /** The floored remainder: the representative of `a` in [0, 360). */
  function FloorMod(a: real): (r: real)
    ensures 0.0 <= r < Turn
    ensures SameDirection(a, r)
  {
    a - Turn * (a / Turn).Floor as real
  }

  /** Two angles in [0, 360) that point the same way are equal. */
  lemma SameResidue(a: real, r1: real, r2: real)
    requires 0.0 <= r1 < Turn && 0.0 <= r2 < Turn
    requires SameDirection(a, r1) && SameDirection(a, r2)
    ensures r1 == r2
  {
    var q1 := ((a - r1) / Turn).Floor;
    var q2 := ((a - r2) / Turn).Floor;
    assert r2 - r1 == Turn * (q1 - q2) as real;
  }

  /** Differing by whole turns is transitive. */
  lemma SameDirectionTrans(a: real, b: real, c: real)
    requires SameDirection(a, b) && SameDirection(b, c)
    ensures SameDirection(a, c)
  {
    var p := ((a - b) / Turn).Floor;
    var q := ((b - c) / Turn).Floor;
    assert (a - c) / Turn == (p + q) as real;
  }

  /** Reflecting two angles about `c` keeps them whole turns apart. */
  lemma SameDirectionReflect(a: real, b: real, c: real)
    requires SameDirection(a, b)
    ensures SameDirection(c - a, c - b)
  {
    var q := ((a - b) / Turn).Floor;
    assert ((c - a) - (c - b)) / Turn == (-q) as real;
  }

  /** The rotation normalised into [0, 360) as the end of a spin does it:
      `(r % 360 + 360) % 360`. */
  function Normalize(rotation: real): (n: real)
    ensures 0.0 <= n < Turn
    ensures SameDirection(rotation, n)
  {
    var once := JsRem(rotation);
    assert SameDirection(once, once + Turn);
    var n := JsRem(once + Turn);
    SameDirectionTrans(rotation, once, once + Turn);
    SameDirectionTrans(rotation, once + Turn, n);
    n
  }

  /** The double JavaScript remainder is the floored remainder, whatever the
      sign of the rotation. */
  lemma NormalizeIsFloorMod(rotation: real)
    ensures Normalize(rotation) == FloorMod(rotation)
  {
    SameResidue(rotation, Normalize(rotation), FloorMod(rotation));
  }

  /** Normalising an angle already in [0, 360) leaves it alone. */
  lemma NormalizeFixesTurn(n: real)
    requires 0.0 <= n < Turn
    ensures Normalize(n) == n
  {
    assert SameDirection(n, n);
    SameResidue(n, Normalize(n), n);
  }

  /** The angle of the wheel, measured from the start of its first slice,
      that rests under the pointer at the bottom (90 degrees clockwise from
      the canvas x-axis): `(360 - n + 90) % 360`. */
  function PointerAngle(normalized: real): (a: real)
    ensures 0.0 <= normalized < Turn ==> 0.0 <= a < Turn
    ensures SameDirection(90.0 - normalized, a)
  {
    var a := JsRem(Turn - normalized + 90.0);
    assert SameDirection(90.0 - normalized, Turn - normalized + 90.0);
    SameDirectionTrans(90.0 - normalized, Turn - normalized + 90.0, a);
    a
  }

  /** The angle read at the end of a spin that stopped at `rotation`
      degrees. */
  function FinalAngle(rotation: real): (a: real)
  {
    PointerAngle(Normalize(rotation))
  }

  /** The angle read under the pointer is `90 - rotation` reduced into
      [0, 360): the pointer sits a quarter turn past the start of the wheel's
      drawing, which has turned by `rotation`. */
  lemma FinalAngleReadsPointer(rotation: real)
    ensures 0.0 <= FinalAngle(rotation) < Turn
    ensures FinalAngle(rotation) == FloorMod(90.0 - rotation)
  {
    var n := Normalize(rotation);
    var a := FinalAngle(rotation);
    SameDirectionReflect(rotation, n, 90.0);
    SameDirectionTrans(90.0 - rotation, 90.0 - n, a);
    SameResidue(90.0 - rotation, a, FloorMod(90.0 - rotation));
  }

  /** Turning the wheel by a whole turn more does not change what the
      pointer reads. */
  lemma FinalAnglePeriodic(rotation: real)
    ensures FinalAngle(rotation + Turn) == FinalAngle(rotation)
  {
    FinalAngleReadsPointer(rotation);
    FinalAngleReadsPointer(rotation + Turn);
    var a := FloorMod(90.0 - rotation);
    assert SameDirection(90.0 - (rotation + Turn), 90.0 - rotation);
    SameDirectionTrans(90.0 - (rotation + Turn), 90.0 - rotation, a);
    SameResidue(90.0 - (rotation + Turn), FloorMod(90.0 - (rotation + Turn)), a);
  }
}

=== FILE: app.dfy ===
/** `App`: the collection of roulettes, the selected one, the editor panel,
    the name-editing flag and the last result, with the operations the page
    offers on them. Each operation is a function from the state before to
    the state after one React update. */
module App {
  import opened Wrappers
  import opened Seqs
  import opened Types
  import opened Editor

  const DefaultName: string := "新しいルーレット"

  const DefaultItems: seq<RouletteItem> := [
    RouletteItem("1", "項目1", 1.0, "#FF6B6B"),
    RouletteItem("2", "項目2", 1.0, "#4ECDC4"),
    RouletteItem("3", "項目3", 1.0, "#45B7D1")
  ]

  /** `DEFAULT_ROULETTE` with the given id (a UUID drawn when the module
      loads, and a fresh one for every roulette created later). */
  function DefaultRoulette(id: string): (r: Roulette)
    ensures r.id == id && r.name == DefaultName
    ensures |r.items| == 3 && UniqueKeys(r.items, ItemId)
    ensures forall i :: 0 <= i < |r.items| ==> r.items[i].weight == 1.0
  {
    Roulette(id, DefaultName, DefaultItems)
  }

  /** The page's state. `editor` is `Some` exactly while `isEditing` is true
      and then holds the mounted editor's draft. */
  datatype AppState = AppState(
    roulettes: seq<Roulette>,
    selected: Roulette,
    editor: Option<Draft>,
    editingName: bool,
    result: Option<RouletteItem>)
  {
    predicate Editing() { editor.Some? }
  }

  /** The collection is never empty, its ids are unique, and the selection is
      one of its entries. */
  ghost predicate Valid(s: AppState)
  {
    && |s.roulettes| > 0
    && UniqueKeys(s.roulettes, RouletteId)
    && s.selected in s.roulettes
  }

  lemma SelectionKeyed(s: AppState)
    ensures s.selected in s.roulettes ==> s.selected.id in Keys(s.roulettes, RouletteId)
  {
    if s.selected in s.roulettes {
      var i :| 0 <= i < |s.roulettes| && s.roulettes[i] == s.selected;
      assert Keys(s.roulettes, RouletteId)[i] == s.selected.id;
    }
  }

  /** The state after first render: the stored collection when there is one
      (`stored` is what parsing it gave), otherwise the default roulette
      alone; the first entry selected, nothing being edited. An empty stored
      list leaves `roulettes[0]` undefined, which is `None` here. */
  function Load(stored: Option<seq<Roulette>>, defaultId: string): (s: Option<AppState>)
    ensures stored.None? ==> s == Some(AppState([DefaultRoulette(defaultId)], DefaultRoulette(defaultId), None, false, None))
    ensures stored.Some? ==> (s.None? <==> stored.value == [])
    ensures s.Some? ==> |s.value.roulettes| > 0 && s.value.selected == s.value.roulettes[0] && !s.value.Editing() && s.value.result == None
    ensures stored.Some? && s.Some? ==> s.value == AppState(stored.value, stored.value[0], None, false, None)
  {
    var roulettes := stored.GetOr([DefaultRoulette(defaultId)]);
    if |roulettes| == 0 then None
    else Some(AppState(roulettes, roulettes[0], None, false, None))
  }

  /** The default start, and any non-empty stored collection with unique
      ids, satisfies the state invariant. */
  lemma LoadValid(stored: Option<seq<Roulette>>, defaultId: string)
    requires stored.Some? ==> |stored.value| > 0 && UniqueKeys(stored.value, RouletteId)
    ensures Load(stored, defaultId).Some? && Valid(Load(stored, defaultId).value)
  {}

  /** Which editor the next render shows. The panel is only mounted while
      editing; a draft survives a render only while the same roulette stays
      selected, otherwise the editor opens afresh on the selection. This is
      the behaviour of an editor keyed by the selected roulette's id. */
  function MountEditor(before: AppState, selected: Roulette, editing: bool): (d: Option<Draft>)
    ensures !editing ==> d == None
    ensures editing && before.selected.id != selected.id ==> d == Some(Open(selected))
    ensures editing && before.selected.id == selected.id && before.editor.Some? ==> d == before.editor
    ensures editing && before.editor.None? ==> d == Some(Open(selected))
  {
    if !editing then None
    else if before.editor.Some? && before.selected.id == selected.id then before.editor
    else Some(Open(selected))
  }

  /** The editor as the page renders it: `RouletteEditor` carries no `key`,
      so React keeps its draft for as long as the panel stays open, whichever
      roulette is selected. */
  function MountEditorAsWritten(before: AppState, selected: Roulette, editing: bool): (d: Option<Draft>)
    ensures !editing ==> d == None
    ensures editing && before.editor.Some? ==> d == before.editor
  {
    if !editing then None
    else if before.editor.Some? then before.editor
    else Some(Open(selected))
  }

  /** An id `crypto.randomUUID()` could return: unlike every id in the
      state. */
  predicate Fresh(s: AppState, id: string)
  {
    id !in Keys(s.roulettes, RouletteId) && id != s.selected.id
  }

  /** `addNewRoulette`: appends a copy of the default with a fresh id,
      selects it and opens the editor on it. */
  function AddNewRoulette(s: AppState, freshId: string): (r: AppState)
    requires Fresh(s, freshId)
    ensures |r.roulettes| == |s.roulettes| + 1
    ensures r.roulettes[..|s.roulettes|] == s.roulettes
    ensures r.roulettes[|s.roulettes|] == r.selected
    ensures r.selected.id == freshId
    ensures r.selected.name == DefaultName && r.selected.items == DefaultItems
    ensures r.editor == Some(Open(r.selected))
    ensures r.editingName == s.editingName && r.result == s.result
    ensures Valid(s) ==> Valid(r)
  {
    var created := DefaultRoulette(freshId);
    AppendFresh(s.roulettes, created, RouletteId);
    AppState(s.roulettes + [created], created, MountEditor(s, created, true), s.editingName, s.result)
  }

  /** `addNewRoulette` as the page renders it. */
  function AddNewRouletteAsWritten(s: AppState, freshId: string): (r: AppState)
    requires Fresh(s, freshId)
    ensures r.roulettes == AddNewRoulette(s, freshId).roulettes
    ensures r.selected == AddNewRoulette(s, freshId).selected
    ensures s.Editing() ==> r.editor == s.editor
    ensures !s.Editing() ==> r.editor == Some(Open(r.selected))
    ensures r.editingName == s.editingName && r.result == s.result
  {
    var created := DefaultRoulette(freshId);
    AppState(s.roulettes + [created], created, MountEditorAsWritten(s, created, true), s.editingName, s.result)
  }

  /** `saveRoulette`: every entry with the saved roulette's id is replaced by
      it, every other entry and the order are kept; the saved roulette
      becomes the selection and the editor closes. */
  function SaveRoulette(s: AppState, updated: Roulette): (r: AppState)
    ensures |r.roulettes| == |s.roulettes|
    ensures forall i :: 0 <= i < |s.roulettes| && s.roulettes[i].id != updated.id ==> r.roulettes[i] == s.roulettes[i]
    ensures forall i :: 0 <= i < |s.roulettes| && s.roulettes[i].id == updated.id ==> r.roulettes[i] == updated
    ensures r.selected == updated && !r.Editing()
    ensures r.editingName == s.editingName && r.result == s.result
  {
    var roulettes := ReplaceWhere(s.roulettes, RouletteId, updated.id, (x: Roulette) => updated);
    AppState(roulettes, updated, MountEditor(s, updated, false), s.editingName, s.result)
  }

  /** Saving a roulette whose id is in the collection keeps the state valid:
      the ids do not change and the saved roulette is an entry. */
  lemma SaveRouletteValid(s: AppState, updated: Roulette)
    ensures Valid(s) && updated.id in Keys(s.roulettes, RouletteId) ==> Valid(SaveRoulette(s, updated))
  {
    var r := SaveRoulette(s, updated);
    if Valid(s) && updated.id in Keys(s.roulettes, RouletteId) {
      var i :| 0 <= i < |s.roulettes| && Keys(s.roulettes, RouletteId)[i] == updated.id;
      assert r.roulettes[i] == updated;
      ReplaceKeepsKeys(s.roulettes, RouletteId, updated.id, (x: Roulette) => updated);
    }
  }

  /** Saving from the open editor: `onSave` hands `saveRoulette` the
      selection with the draft's name and items. */
  function SaveFromEditor(s: AppState): (r: AppState)
    requires s.Editing()
    ensures r.selected == Roulette(s.selected.id, s.editor.value.name, s.editor.value.items)
    ensures Valid(s) ==> Valid(r)
  {
    SelectionKeyed(s);
    SaveRouletteValid(s, HandleSave(s.selected, s.editor.value));
    SaveRoulette(s, HandleSave(s.selected, s.editor.value))
  }

  /** Saving right after creating a roulette, without edits, leaves the new
      default roulette at the end of the collection. */
  lemma SaveAfterAddNewKeepsDefault(s: AppState, freshId: string)
    requires Valid(s) && Fresh(s, freshId)
    ensures SaveFromEditor(AddNewRoulette(s, freshId)).roulettes == s.roulettes + [DefaultRoulette(freshId)]
  {
    var created := DefaultRoulette(freshId);
    var added := AddNewRoulette(s, freshId);
    assert added.roulettes == s.roulettes + [created];
    assert HandleSave(added.selected, added.editor.value) == created;
    ReplaceFreshLast(s.roulettes, created, RouletteId, (x: Roulette) => created);
  }

  /** As written, creating a roulette while the editor is open keeps the old
      draft: saving right away writes the old draft's name and items under
      the new id, so the new entry is not the default. */
  lemma AsWrittenAddNewSavesStaleDraft(s: AppState, freshId: string)
    requires Fresh(s, freshId)
    requires s.Editing() && s.editor.value.name != DefaultName
    ensures SaveFromEditor(AddNewRouletteAsWritten(s, freshId)).roulettes[|s.roulettes|] != DefaultRoulette(freshId)
  {
    var added := AddNewRouletteAsWritten(s, freshId);
    var saved := SaveFromEditor(added);
    assert added.roulettes[|s.roulettes|].id == freshId;
  }

  /** `updateRouletteName`: the selection renamed and saved; the name field
      closes. Only the name changes: id and items stay, and in a valid state
      the collection entry of the selection is renamed and nothing else is
      touched. */
  function UpdateRouletteName(s: AppState, newName: string): (r: AppState)
    ensures r.selected.id == s.selected.id && r.selected.items == s.selected.items
    ensures r.selected.name == newName && !r.editingName && !r.Editing()
    ensures r.result == s.result
    ensures |r.roulettes| == |s.roulettes|
    ensures forall i :: 0 <= i < |s.roulettes| ==>
      r.roulettes[i] == if s.roulettes[i].id == s.selected.id then s.selected.(name := newName) else s.roulettes[i]
    ensures Valid(s) ==> forall i :: 0 <= i < |s.roulettes| ==>
      r.roulettes[i] == if s.roulettes[i].id == s.selected.id then s.roulettes[i].(name := newName) else s.roulettes[i]
    ensures Valid(s) ==> Valid(r)
  {
    SelectionKeyed(s);
    SaveRouletteValid(s, s.selected.(name := newName));
    SaveRoulette(s, s.selected.(name := newName)).(editingName := false)
  }

  /** Deletion is only offered while more than one roulette exists. */
  predicate CanDelete(s: AppState)
  {
    |s.roulettes| > 1
  }

  /** `deleteRoulette`: the entries with the id are dropped, the others kept
      in order; if the selection was deleted the new first entry becomes the
      selection (and an open editor reopens on it), otherwise the selection
      stays. `None` when the selection was deleted and nothing is left, where
      the source selects `undefined`. */
  function DeleteRoulette(s: AppState, id: string): (r: Option<AppState>)
    ensures r.Some? ==> forall x :: x in r.value.roulettes <==> x in s.roulettes && x.id != id
    ensures r.Some? && s.selected.id == id ==> |r.value.roulettes| > 0 && r.value.selected == r.value.roulettes[0]
    ensures r.Some? && s.selected.id != id ==> r.value.selected == s.selected && r.value.editor == s.editor
    ensures r.Some? && s.selected.id == id && s.Editing() ==> r.value.editor == Some(Open(r.value.selected))
    ensures r.Some? ==> (r.value.Editing() <==> s.Editing())
    ensures r.Some? ==> r.value.editingName == s.editingName && r.value.result == s.result
    ensures r.None? <==> s.selected.id == id && (forall x :: x in s.roulettes ==> x.id == id)
  {
    var remaining := Without(s.roulettes, RouletteId, id);
    if s.selected.id != id then Some(s.(roulettes := remaining))
    else if |remaining| == 0 then None
    else
      var first := remaining[0];
      Some(s.(roulettes := remaining, selected := first, editor := MountEditor(s, first, s.Editing())))
  }

  /** `deleteRoulette` as the page renders it: the unkeyed editor keeps its
      draft, even when the roulette it was opened on is the one deleted. */
  function DeleteRouletteAsWritten(s: AppState, id: string): (r: Option<AppState>)
    ensures r.Some? <==> DeleteRoulette(s, id).Some?
    ensures r.Some? ==> r.value.roulettes == DeleteRoulette(s, id).value.roulettes
    ensures r.Some? ==> r.value.selected == DeleteRoulette(s, id).value.selected
    ensures r.Some? ==> r.value.editor == s.editor
    ensures r.Some? ==> r.value.editingName == s.editingName && r.value.result == s.result
  {
    match DeleteRoulette(s, id)
    case None => None
    case Some(d) => Some(d.(editor := MountEditorAsWritten(s, d.selected, s.Editing())))
  }

  /** As written, deleting the selected roulette while the editor is open and
      then saving writes the deleted roulette's draft over the entry that
      became the selection. */
  lemma AsWrittenDeleteThenSaveOverwrites(s: AppState)
    requires Valid(s) && CanDelete(s) && s.Editing()
    ensures DeleteRouletteAsWritten(s, s.selected.id).Some?
    ensures var d := DeleteRouletteAsWritten(s, s.selected.id).value;
      && |d.roulettes| > 0
      && SaveFromEditor(d).roulettes[0] == Roulette(d.roulettes[0].id, s.editor.value.name, s.editor.value.items)
  {
    var i :| 0 <= i < |s.roulettes| && s.roulettes[i] == s.selected;
    DeleteGuarded(s, i);
    var d := DeleteRouletteAsWritten(s, s.selected.id).value;
    assert d.roulettes[0] == d.selected;
  }

  /** With the editor keyed by the selection, deleting the selected roulette
      while editing and saving without edits leaves the remaining roulettes
      as they were. */
  lemma SaveAfterDeleteKeepsEntries(s: AppState)
    requires Valid(s) && CanDelete(s) && s.Editing()
    ensures DeleteRoulette(s, s.selected.id).Some?
    ensures var d := DeleteRoulette(s, s.selected.id).value;
      SaveFromEditor(d).roulettes == d.roulettes
  {
    var i :| 0 <= i < |s.roulettes| && s.roulettes[i] == s.selected;
    DeleteGuarded(s, i);
    var d := DeleteRoulette(s, s.selected.id).value;
    var first := d.roulettes[0];
    assert first.id != s.selected.id;
    assert d.editor == Some(Open(first));
    assert HandleSave(first, Open(first)) == first;
    var saved := SaveFromEditor(d).roulettes;
    forall j | 0 <= j < |d.roulettes| ensures saved[j] == d.roulettes[j] {
      if d.roulettes[j].id == first.id {
        assert Keys(d.roulettes, RouletteId)[j] == Keys(d.roulettes, RouletteId)[0];
      }
    }
  }

  /** The entries `deleteRoulette` keeps stay in their relative order. */
  lemma DeleteKeepsOrder(s: AppState, a: seq<Roulette>, b: seq<Roulette>, id: string)
    requires s.roulettes == a + b && DeleteRoulette(s, id).Some?
    ensures DeleteRoulette(s, id).value.roulettes == Without(a, RouletteId, id) + Without(b, RouletteId, id)
  {
    WithoutAppend(a, b, RouletteId, id);
  }

  /** With the guard, deleting any roulette of a valid state succeeds, drops
      exactly that roulette, and leaves a valid state: the collection stays
      non-empty and the selection stays one of its entries. */
  lemma DeleteGuarded(s: AppState, i: nat)
    requires Valid(s) && CanDelete(s) && i < |s.roulettes|
    ensures DeleteRoulette(s, s.roulettes[i].id).Some?
    ensures |DeleteRoulette(s, s.roulettes[i].id).value.roulettes| == |s.roulettes| - 1
    ensures Valid(DeleteRoulette(s, s.roulettes[i].id).value)
  {
    var id := s.roulettes[i].id;
    var remaining := Without(s.roulettes, RouletteId, id);
    WithoutDropsOne(s.roulettes, RouletteId, i);
    WithoutUnique(s.roulettes, RouletteId, id);
    assert s.roulettes[0] in remaining || s.roulettes[1] in remaining by {
      assert RouletteId(s.roulettes[0]) != RouletteId(s.roulettes[1]);
    }
  }

  /** Without the guard the invariant is lost: deleting the only roulette
      leaves nothing to select. */
  lemma DeleteLastLosesSelection(s: AppState)
    requires s.roulettes == [s.selected]
    ensures DeleteRoulette(s, s.selected.id).None?
  {}

  /** `selectRoulette`: the chosen roulette becomes the selection, the
      editor closes and the last result is cleared. */
  function SelectRoulette(s: AppState, chosen: Roulette): (r: AppState)
    ensures r.selected == chosen && !r.Editing() && r.result == None
    ensures r.roulettes == s.roulettes && r.editingName == s.editingName
    ensures Valid(s) && chosen in s.roulettes ==> Valid(r)
  {
    s.(selected := chosen, editor := MountEditor(s, chosen, false), result := None)
  }

  /** `handleSpinEnd`: the winning item becomes the result shown. */
  function SpinEnd(s: AppState, item: RouletteItem): (r: AppState)
    ensures r.result == Some(item)
    ensures r.roulettes == s.roulettes && r.selected == s.selected && r.editor == s.editor
    ensures r.editingName == s.editingName
  {
    s.(result := Some(item))
  }

  /** The settings button: toggles `isEditing`; opening mounts an editor on
      the selection, closing discards the draft. */
  function ToggleEditing(s: AppState): (r: AppState)
    ensures r.Editing() <==> !s.Editing()
    ensures r.Editing() ==> r.editor == Some(Open(s.selected))
    ensures r.roulettes == s.roulettes && r.selected == s.selected
    ensures r.editingName == s.editingName && r.result == s.result
  {
    s.(editor := MountEditor(s, s.selected, !s.Editing()))
  }
}

=== FILE: colors.dfy ===
/** The colour a new item gets in the editor:
    `#${Math.floor(Math.random() * 16777215).toString(16)}`, with the random
    value in [0, 1) as a parameter. */
module Colors {

  /** One hexadecimal digit, in either case. */
  predicate IsHexDigit(c: char)
  {
    '0' <= c <= '9' || 'a' <= c <= 'f' || 'A' <= c <= 'F'
  }

  predicate IsHex(s: string)
  {
    forall i :: 0 <= i < |s| ==> IsHexDigit(s[i])
  }

  /** The digits `Number.prototype.toString(16)` writes: no upper case. */
  predicate IsLowerHex(s: string)
  {
    forall i :: 0 <= i < |s| ==> '0' <= s[i] <= '9' || 'a' <= s[i] <= 'f'
  }

  /** The lower-case digit `Number.prototype.toString(16)` writes for `d`. */
  function Digit(d: nat): (c: char)
    requires d < 16
    ensures IsHexDigit(c) && ('0' <= c <= '9' || 'a' <= c <= 'f')
  {
    if d < 10 then '0' + d as char else 'a' + (d - 10) as char
  }

  function DigitValue(c: char): (d: nat)
    requires IsHexDigit(c)
    ensures d < 16
  {
    if '0' <= c <= '9' then (c - '0') as nat
    else if 'a' <= c <= 'f' then (c - 'a') as nat + 10
    else (c - 'A') as nat + 10
  }

  /** `n.toString(16)`: lower-case hexadecimal without leading zeros. */
  function ToHex(n: nat): (s: string)
    ensures |s| >= 1 && IsHex(s) && IsLowerHex(s)
    ensures |s| > 1 ==> s[0] != '0'
  {
    if n < 16 then [Digit(n)]
    else ToHex(n / 16) + [Digit(n % 16)]
  }

  /** The number a string of hexadecimal digits denotes. */
  function FromHex(s: string): (n: nat)
    requires IsHex(s)
  {
    if |s| == 0 then 0
    else FromHex(s[..|s| - 1]) * 16 + DigitValue(s[|s| - 1])
  }

  /** Reading back what `toString(16)` wrote gives the number again. */
  lemma {:induction false} HexRoundTrip(n: nat)
    ensures FromHex(ToHex(n)) == n
  {
    var s := ToHex(n);
    if n < 16 {
      assert s[..0] == [];
    } else {
      assert s[..|s| - 1] == ToHex(n / 16);
      HexRoundTrip(n / 16);
    }
  }

  /** `16^k`. */
  function Pow16(k: nat): (p: nat)
    ensures p >= 1
  {
    if k == 0 then 1 else 16 * Pow16(k - 1)
  }

  /** `toString(16)` writes at most `k` digits for a number below `16^k`. */
  lemma {:induction false} ToHexShort(n: nat, k: nat)
    requires k >= 1 && n < Pow16(k)
    ensures |ToHex(n)| <= k
  {
    if n >= 16 {
      ToHexShort(n / 16, k - 1);
    }
  }

  /** Numbers up to the colour range need at most six digits. */
  const ColorRange: nat := 16777215

  /** The random colour index: `Math.floor(Math.random() * 16777215)`. */
  function ColorIndex(random: real): (n: nat)
    requires 0.0 <= random < 1.0
    ensures n < ColorRange
  {
    (random * ColorRange as real).Floor as nat
  }

  /** HTML's "valid simple colour", the only form `<input type="color">`
      keeps: `#` and exactly six hexadecimal digits. */
  predicate IsSimpleColor(c: string)
  {
    |c| == 7 && c[0] == '#' && IsHex(c[1..])
  }

  /** The colour string as the editor builds it. */
  function RandomColorAsWritten(random: real): (c: string)
    requires 0.0 <= random < 1.0
    ensures |c| >= 2 && c[0] == '#' && IsHex(c[1..])
    ensures FromHex(c[1..]) == ColorIndex(random)
  {
    var n := ColorIndex(random);
    HexRoundTrip(n);
    assert ("#" + ToHex(n))[1..] == ToHex(n);
    "#" + ToHex(n)
  }

  /** As written, one index in sixteen (every index below `0x100000`) gives
      fewer than six digits, which is not a simple colour: the colour input
      shows it as black. Three- and four-digit strings are still CSS colours
      (of a different shade); one, two and five digits are not, and the
      canvas then keeps its previous fill style. */
  lemma AsWrittenColorTooShort(random: real)
    requires 0.0 <= random < 1.0
    requires ColorIndex(random) < 0x100000
    ensures !IsSimpleColor(RandomColorAsWritten(random))
  {
    assert Pow16(5) == 0x100000;
    ToHexShort(ColorIndex(random), 5);
  }

  /** `s` with zeros in front, up to `width` characters. */
  function PadStart(s: string, width: nat): (r: string)
    requires |s| <= width
    ensures |r| == width
    ensures r[width - |s|..] == s
    ensures forall i :: 0 <= i < width - |s| ==> r[i] == '0'
  {
    seq(width - |s|, _ => '0') + s
  }

  /** Leading zeros do not change the number a hexadecimal string denotes. */
  lemma {:induction false} LeadingZero(s: string)
    requires IsHex(s)
    ensures IsHex("0" + s) && FromHex("0" + s) == FromHex(s)
  {
    if |s| > 0 {
      var t := "0" + s;
      assert t[..|t| - 1] == "0" + s[..|s| - 1];
      LeadingZero(s[..|s| - 1]);
    }
  }

  lemma {:induction false} PadStartValue(s: string, width: nat)
    requires IsHex(s) && |s| <= width
    ensures IsHex(PadStart(s, width)) && FromHex(PadStart(s, width)) == FromHex(s)
    decreases width - |s|
  {
    if |s| < width {
      LeadingZero(s);
      PadStartValue("0" + s, width);
      assert PadStart(s, width) == PadStart("0" + s, width);
    }
  }

  /** The colour with its digits padded to six, as the editor evidently
      means it: always a simple colour, and it reads back as the index drawn. */
  function RandomColor(random: real): (c: string)
    requires 0.0 <= random < 1.0
    ensures IsSimpleColor(c) && IsLowerHex(c[1..])
    ensures FromHex(c[1..]) == ColorIndex(random)
  {
    var n := ColorIndex(random);
    assert Pow16(6) == 16777216;
    ToHexShort(n, 6);
    HexRoundTrip(n);
    PadStartValue(ToHex(n), 6);
    var digits := PadStart(ToHex(n), 6);
    assert IsLowerHex(digits) by {
      var hex := ToHex(n);
      forall i | 0 <= i < 6 && 6 - |hex| <= i
        ensures digits[i] == hex[i - (6 - |hex|)]
      {
        assert digits[6 - |hex|..][i - (6 - |hex|)] == digits[i];
      }
    }
    assert ("#" + digits)[1..] == digits;
    "#" + digits
  }
}

=== FILE: editor.dfy ===
/** `RouletteEditor`: the draft of one roulette's name and items, and the
    edits made to it before it is saved. */
module Editor {
  import opened Wrappers
  import opened Seqs
  import opened Types
  import Colors

  /** The label of a freshly added item. */
  const NewItemText: string := "新しい項目"

  /** The editor's own state, seeded once from the roulette it opens on. */
  datatype Draft = Draft(name: string, items: seq<RouletteItem>)

  /** `useState(roulette.items)` and `useState(roulette.name)`. */
  function Open(r: Roulette): (d: Draft)
  {
    Draft(r.name, r.items)
  }

  /** `addItem`: appends one item with the fresh id, the default label,
      weight 1 and a random colour; the items before it stay as they were.
      The colour is the zero-padded form (`Colors.RandomColor`) of the drawn
      index, which the unpadded form of the editor does not always give. */
  function AddItem(items: seq<RouletteItem>, freshId: string, random: real): (r: seq<RouletteItem>)
    requires freshId !in Keys(items, ItemId)
    requires 0.0 <= random < 1.0
    ensures |r| == |items| + 1
    ensures r[..|items|] == items
    ensures r[|items|].id == freshId && r[|items|].text == NewItemText && r[|items|].weight == 1.0
    ensures Colors.IsSimpleColor(r[|items|].color)
    ensures Colors.FromHex(r[|items|].color[1..]) == Colors.ColorIndex(random)
    ensures UniqueKeys(items, ItemId) ==> UniqueKeys(r, ItemId)
  {
    var item := RouletteItem(freshId, NewItemText, 1.0, Colors.RandomColor(random));
    AppendFresh(items, item, ItemId);
    items + [item]
  }

  /** `removeItem`: `items.filter(item => item.id !== id)`. No item with the
      id is left, every other item is kept, and ids stay unique. */
  function RemoveItem(items: seq<RouletteItem>, id: string): (r: seq<RouletteItem>)
    ensures forall x :: x in r ==> x in items && x.id != id
    ensures forall x :: x in items && x.id != id ==> x in r
    ensures UniqueKeys(items, ItemId) ==> UniqueKeys(r, ItemId)
  {
    WithoutUnique(items, ItemId, id);
    Without(items, ItemId, id)
  }

  /** The kept items stay in their relative order: removing from a
      concatenation removes from each part. */
  lemma RemoveItemKeepsOrder(a: seq<RouletteItem>, b: seq<RouletteItem>, id: string)
    ensures RemoveItem(a + b, id) == RemoveItem(a, id) + RemoveItem(b, id)
  {
    WithoutAppend(a, b, ItemId, id);
  }

  /** Removing an id no item has changes nothing, and removing twice is
      removing once. */
  lemma RemoveItemAbsentIdempotent(items: seq<RouletteItem>, id: string)
    ensures id !in Keys(items, ItemId) ==> RemoveItem(items, id) == items
    ensures RemoveItem(RemoveItem(items, id), id) == RemoveItem(items, id)
  {
    if id !in Keys(items, ItemId) {
      WithoutAbsent(items, ItemId, id);
    }
    WithoutIdempotent(items, ItemId, id);
  }

  /** With unique ids, removing the id of an item drops exactly that one. */
  lemma RemoveItemDropsOne(items: seq<RouletteItem>, i: nat)
    requires UniqueKeys(items, ItemId) && i < |items|
    ensures |RemoveItem(items, items[i].id)| == |items| - 1
    ensures items[i] !in RemoveItem(items, items[i].id)
  {
    WithoutDropsOne(items, ItemId, i);
  }

  /** `Partial<RouletteItem>`: each field present (`Some`) or absent. */
  datatype ItemPatch = ItemPatch(id: Option<string>, text: Option<string>, weight: Option<real>, color: Option<string>)

  /** The update that carries no field. */
  const NoChanges: ItemPatch := ItemPatch(None, None, None, None)

  /** `{ ...item, ...updates }`: each field present in the patch wins. */
  function Merge(item: RouletteItem, p: ItemPatch): (merged: RouletteItem)
  {
    RouletteItem(p.id.GetOr(item.id), p.text.GetOr(item.text), p.weight.GetOr(item.weight), p.color.GetOr(item.color))
  }

  /** Fields present in the patch take its value, absent ones keep the old
      value; the empty patch is the identity and merging twice is merging
      once. */
  lemma MergeFields(item: RouletteItem, p: ItemPatch)
    ensures Merge(item, p).text == (if p.text.Some? then p.text.value else item.text)
    ensures Merge(item, p).weight == (if p.weight.Some? then p.weight.value else item.weight)
    ensures Merge(item, p).color == (if p.color.Some? then p.color.value else item.color)
    ensures Merge(item, p).id == (if p.id.Some? then p.id.value else item.id)
    ensures Merge(item, NoChanges) == item
    ensures Merge(Merge(item, p), p) == Merge(item, p)
  {}

  /** `updateItem`: `items.map(item => item.id === id ? { ...item, ...updates } : item)`.
      Length and order are kept, items with another id are untouched, the
      matching ones are merged; a patch without `id` keeps every id. */
  function UpdateItem(items: seq<RouletteItem>, id: string, p: ItemPatch): (r: seq<RouletteItem>)
    ensures |r| == |items|
    ensures forall i :: 0 <= i < |items| && items[i].id != id ==> r[i] == items[i]
    ensures forall i :: 0 <= i < |items| && items[i].id == id ==> r[i] == Merge(items[i], p)
    ensures p.id.None? ==> Keys(r, ItemId) == Keys(items, ItemId)
  {
    var f := (x: RouletteItem) => Merge(x, p);
    if p.id.None? then
      ReplaceKeepsKeys(items, ItemId, id, f);
      ReplaceWhere(items, ItemId, id, f)
    else
      ReplaceWhere(items, ItemId, id, f)
  }

  /** Updating with no fields, or updating an id no item has, changes
      nothing. */
  lemma UpdateItemIdentity(items: seq<RouletteItem>, id: string, p: ItemPatch)
    requires p == NoChanges || id !in Keys(items, ItemId)
    ensures UpdateItem(items, id, p) == items
  {
    var r := UpdateItem(items, id, p);
    forall i | 0 <= i < |items| ensures r[i] == items[i] {
      assert Keys(items, ItemId)[i] == items[i].id;
    }
  }

  /** Applying the same update twice is applying it once. */
  lemma UpdateItemIdempotent(items: seq<RouletteItem>, id: string, p: ItemPatch)
    ensures UpdateItem(UpdateItem(items, id, p), id, p) == UpdateItem(items, id, p)
  {
    var once := UpdateItem(items, id, p);
    var twice := UpdateItem(once, id, p);
    forall i | 0 <= i < |items| ensures twice[i] == once[i] {
      if items[i].id == id {
        MergeFields(items[i], p);
      }
    }
  }

  /** `handleSave`: `onSave({ ...roulette, name, items })`. The saved
      roulette keeps the id of the roulette the editor was given and takes
      the draft's name and items. */
  function HandleSave(r: Roulette, d: Draft): (saved: Roulette)
    ensures saved.id == r.id
    ensures saved.name == d.name && saved.items == d.items
  {
    Roulette(r.id, d.name, d.items)
  }

  /** Opening the editor on a roulette and saving without edits gives the
      same roulette back. */
  lemma SaveUnedited(r: Roulette)
    ensures HandleSave(r, Open(r)) == r
  {}
}

=== FILE: seqs.dfy ===
/** Generic sequence operations the application applies to lists of records
    that carry a string key: `filter` by key, `map` that rewrites the entries
    with a given key, and sums of reals. */
module Seqs {

  /** The keys of `s`, in order. */
  function Keys<T>(s: seq<T>, key: T -> string): (ks: seq<string>)
    ensures |ks| == |s|
    ensures forall i :: 0 <= i < |s| ==> ks[i] == key(s[i])
  {
    seq(|s|, i requires 0 <= i < |s| => key(s[i]))
  }

  /** No two entries of `s` share a key. */
  ghost predicate UniqueKeys<T>(s: seq<T>, key: T -> string)
  {
    forall i, j :: 0 <= i < j < |s| ==> key(s[i]) != key(s[j])
  }

  /** Appending an entry with a fresh key keeps keys unique. */
  lemma AppendFresh<T>(s: seq<T>, x: T, key: T -> string)
    requires key(x) !in Keys(s, key)
    ensures UniqueKeys(s, key) ==> UniqueKeys(s + [x], key)
    ensures Keys(s + [x], key) == Keys(s, key) + [key(x)]
  {
    forall i | 0 <= i < |s| ensures key((s + [x])[i]) != key(x) {
      assert Keys(s, key)[i] == key(s[i]);
    }
  }

  /** `s.filter(x => key(x) !== k)`: the entries of `s` whose key is not `k`,
      in their original order. */
  function Without<T>(s: seq<T>, key: T -> string, k: string): (r: seq<T>)
    ensures |r| <= |s|
    ensures forall x :: x in r ==> x in s && key(x) != k
    ensures forall x :: x in s && key(x) != k ==> x in r
  {
    if |s| == 0 then []
    else if key(s[0]) == k then Without(s[1..], key, k)
    else [s[0]] + Without(s[1..], key, k)
  }

  /** Filtering distributes over concatenation: the entries that survive keep
      their relative order. */
  lemma {:induction false} WithoutAppend<T>(a: seq<T>, b: seq<T>, key: T -> string, k: string)
    ensures Without(a + b, key, k) == Without(a, key, k) + Without(b, key, k)
  {
    if |a| == 0 {
      assert a + b == b;
    } else {
      assert (a + b)[0] == a[0];
      assert (a + b)[1..] == a[1..] + b;
      WithoutAppend(a[1..], b, key, k);
    }
  }

  /** Removing a key no entry carries changes nothing. */
  lemma {:induction false} WithoutAbsent<T>(s: seq<T>, key: T -> string, k: string)
    requires k !in Keys(s, key)
    ensures Without(s, key, k) == s
  {
    if |s| > 0 {
      assert key(s[0]) == Keys(s, key)[0];
      assert Keys(s[1..], key) == Keys(s, key)[1..];
      WithoutAbsent(s[1..], key, k);
    }
  }

  /** Filtering twice by the same key is filtering once. */
  lemma WithoutIdempotent<T>(s: seq<T>, key: T -> string, k: string)
    ensures Without(Without(s, key, k), key, k) == Without(s, key, k)
  {
    var r := Without(s, key, k);
    WithoutAbsent(r, key, k);
  }

  /** Filtering keeps keys unique. */
  lemma {:induction false} WithoutUnique<T>(s: seq<T>, key: T -> string, k: string)
    ensures UniqueKeys(s, key) ==> UniqueKeys(Without(s, key, k), key)
  {
    if |s| > 0 && UniqueKeys(s, key) {
      var t := Without(s[1..], key, k);
      WithoutUnique(s[1..], key, k);
      if key(s[0]) != k {
        forall j | 0 < j < |t| + 1
          ensures key(([s[0]] + t)[0]) != key(([s[0]] + t)[j])
        {
          assert t[j - 1] in t;
          var m :| 0 <= m < |s[1..]| && s[1..][m] == t[j - 1];
          assert s[m + 1] == t[j - 1];
        }
      }
    }
  }

  /** With unique keys, removing a key that occurs drops exactly one entry. */
  lemma {:induction false} WithoutDropsOne<T>(s: seq<T>, key: T -> string, i: nat)
    requires UniqueKeys(s, key)
    requires i < |s|
    ensures |Without(s, key, key(s[i]))| == |s| - 1
  {
    var k := key(s[i]);
    if i == 0 {
      WithoutAbsent(s[1..], key, k);
    } else {
      assert key(s[0]) != k;
      assert s[1..][i - 1] == s[i];
      WithoutDropsOne(s[1..], key, i - 1);
    }
  }

  /** `s.map(x => key(x) === k ? f(x) : x)`: every entry with key `k` is
      rewritten by `f`, every other entry is left as it was. */
  function ReplaceWhere<T>(s: seq<T>, key: T -> string, k: string, f: T -> T): (r: seq<T>)
    ensures |r| == |s|
    ensures forall i :: 0 <= i < |s| && key(s[i]) != k ==> r[i] == s[i]
    ensures forall i :: 0 <= i < |s| && key(s[i]) == k ==> r[i] == f(s[i])
  {
    if |s| == 0 then []
    else [if key(s[0]) == k then f(s[0]) else s[0]] + ReplaceWhere(s[1..], key, k, f)
  }

  /** Rewriting the entries of a key that does not occur changes nothing. */
  lemma ReplaceAbsent<T>(s: seq<T>, key: T -> string, k: string, f: T -> T)
    requires k !in Keys(s, key)
    ensures ReplaceWhere(s, key, k, f) == s
  {
    var r := ReplaceWhere(s, key, k, f);
    forall i | 0 <= i < |s| ensures r[i] == s[i] {
      assert Keys(s, key)[i] == key(s[i]);
    }
  }

  /** Rewriting the key of a fresh last entry rewrites only that entry. */
  lemma ReplaceFreshLast<T>(s: seq<T>, x: T, key: T -> string, f: T -> T)
    requires key(x) !in Keys(s, key)
    ensures ReplaceWhere(s + [x], key, key(x), f) == s + [f(x)]
  {
    var r := ReplaceWhere(s + [x], key, key(x), f);
    forall i | 0 <= i < |s| ensures r[i] == s[i] {
      assert (s + [x])[i] == s[i];
    }
  }

  /** A rewrite that keeps each entry's key keeps the key sequence. */
  lemma ReplaceKeepsKeys<T>(s: seq<T>, key: T -> string, k: string, f: T -> T)
    requires forall x :: key(x) == k ==> key(f(x)) == k
    ensures Keys(ReplaceWhere(s, key, k, f), key) == Keys(s, key)
    ensures UniqueKeys(s, key) ==> UniqueKeys(ReplaceWhere(s, key, k, f), key)
  {
    var r := ReplaceWhere(s, key, k, f);
    forall i | 0 <= i < |s| ensures Keys(r, key)[i] == Keys(s, key)[i] {
      if key(s[i]) == k {
        assert key(f(s[i])) == k;
      }
    }
  }

  /** Sum of a sequence of reals, first element first. */
  function Sum(s: seq<real>): (total: real)
  {
    if |s| == 0 then 0.0 else s[0] + Sum(s[1..])
  }

  /** Sums split over concatenation. */
  lemma {:induction false} SumAppend(a: seq<real>, b: seq<real>)
    ensures Sum(a + b) == Sum(a) + Sum(b)
  {
    if |a| == 0 {
      assert a + b == b;
    } else {
      assert (a + b)[1..] == a[1..] + b;
      SumAppend(a[1..], b);
    }
  }

  /** A sum of positive terms over a non-empty sequence is positive. */
  lemma {:induction false} SumPositive(s: seq<real>)
    requires |s| > 0
    requires forall i :: 0 <= i < |s| ==> s[i] > 0.0
    ensures Sum(s) > 0.0
  {
    if |s| > 1 {
      SumPositive(s[1..]);
    }
  }
}

=== FILE: spin.dfy ===
/** The spin of `RouletteWheel`: the busy flag, the random amount of turn,
    the eased animation as a pure function of the elapsed time, and the
    winner read at the end. The display clock and `requestAnimationFrame`
    become the `elapsed` parameter; `Math.random()` becomes `random`. */
module Spin {
  import opened Wrappers
  import opened Types
  import opened Angles
  import opened Wheel

  /** Length of the animation, in milliseconds. */
  const SpinDuration: real := 3000.0

  /** Whole turns every spin makes before its random part. */
  const WholeTurns: real := 5.0

  /** `360 * 5 + Math.random() * 360`: between five and six turns. */
  function TotalRotation(random: real): (r: real)
    requires 0.0 <= random < 1.0
    ensures WholeTurns * Turn <= r < (WholeTurns + 1.0) * Turn
  {
    Turn * WholeTurns + random * Turn
  }

  /** `Math.min(elapsed / spinDuration, 1)`. */
  function Progress(elapsed: real): (p: real)
    ensures p <= 1.0
    ensures p == 1.0 <==> elapsed >= SpinDuration
    ensures elapsed >= 0.0 ==> p >= 0.0
    ensures p < 1.0 ==> p * SpinDuration == elapsed
  {
    var ratio := elapsed / SpinDuration;
    if ratio < 1.0 then ratio else 1.0
  }

  function Cube(x: real): (c: real)
  {
    x * x * x
  }

  lemma MulMono(a: real, b: real, c: real, d: real)
    requires 0.0 <= a <= b && 0.0 <= c <= d
    ensures 0.0 <= a * c <= b * d
  {
    assert a * c <= b * c;
    assert b * c <= b * d;
  }

  lemma CubeMono(x: real, y: real)
    requires 0.0 <= x <= y
    ensures 0.0 <= Cube(x) <= Cube(y)
  {
    MulMono(x, y, x, y);
    MulMono(x * x, y * y, x, y);
  }

  /** `1 - Math.pow(1 - t, 3)`: the cubic ease-out. It fixes both ends of
      [0, 1] and stays inside it. */
  function EaseOut(t: real): (e: real)
    ensures t == 0.0 ==> e == 0.0
    ensures t == 1.0 ==> e == 1.0
    ensures 0.0 <= t <= 1.0 ==> 0.0 <= e <= 1.0
  {
    assert 0.0 <= t <= 1.0 ==> 0.0 <= Cube(1.0 - t) <= Cube(1.0) by {
      if 0.0 <= t <= 1.0 { CubeMono(1.0 - t, 1.0); }
    }
    1.0 - Cube(1.0 - t)
  }

  /** The ease-out never turns the wheel back during a spin. */
  lemma EaseOutMonotone(s: real, t: real)
    requires 0.0 <= s <= t <= 1.0
    ensures EaseOut(s) <= EaseOut(t)
  {
    CubeMono(1.0 - t, 1.0 - s);
  }

  /** A non-negative amount scaled by a fraction in [0, 1] stays between 0
      and the amount. */
  lemma ScaledWithin(amount: real, f: real)
    ensures 0.0 <= amount && 0.0 <= f <= 1.0 ==> 0.0 <= amount * f <= amount
  {
    if 0.0 <= amount && 0.0 <= f <= 1.0 {
      MulMono(0.0, amount, f, 1.0);
    }
  }

  /** The turn a spin started: its start angle and its total, in degrees,
      and the items `spin` saw when the button was pressed (the `animate`
      closure keeps them, and the total weight computed from them, for the
      whole spin). */
  datatype Animation = Animation(startRotation: real, totalRotation: real, items: seq<RouletteItem>)

  /** `startRotation + totalRotation * easeOut(progress)`: the angle a frame
      shows. It starts at the start angle, stays between the start and the
      end, and reaches the end once the duration has passed. */
  function CurrentRotation(a: Animation, elapsed: real): (r: real)
    ensures elapsed == 0.0 ==> r == a.startRotation
    ensures elapsed >= SpinDuration ==> r == a.startRotation + a.totalRotation
    ensures elapsed >= 0.0 && a.totalRotation >= 0.0 ==>
      a.startRotation <= r <= a.startRotation + a.totalRotation
  {
    var e := EaseOut(Progress(elapsed));
    ScaledWithin(a.totalRotation, e);
    a.startRotation + a.totalRotation * e
  }

  /** Later frames never show the wheel turned back. */
  lemma CurrentRotationMonotone(a: Animation, s: real, t: real)
    requires 0.0 <= s <= t && a.totalRotation >= 0.0
    ensures CurrentRotation(a, s) <= CurrentRotation(a, t)
  {
    EaseOutMonotone(Progress(s), Progress(t));
    var es := EaseOut(Progress(s));
    var et := EaseOut(Progress(t));
    MulMono(a.totalRotation, a.totalRotation, es, et);
  }

  /** The component's state: `rotation` and the busy flag `isSpinning`.
      Here `rotation` holds degrees; the drawing converts to radians. */
  datatype WheelState = WheelState(rotation: real, spinning: bool)

  /** The wheel before any spin. */
  const Initial: WheelState := WheelState(0.0, false)

  /** Pressing the spin button while the wheel shows `items`. While a spin
      runs nothing happens; otherwise the wheel becomes busy and an animation
      of five to six turns starts from the current angle, holding on to
      `items`. */
  function Spin(w: WheelState, random: real, items: seq<RouletteItem>): (r: (WheelState, Option<Animation>))
    requires 0.0 <= random < 1.0
    ensures w.spinning ==> r == (w, None)
    ensures !w.spinning ==> r.0 == WheelState(w.rotation, true) && r.1.Some?
    ensures r.1.Some? ==> r.1.value.startRotation == w.rotation && r.1.value.items == items
    ensures r.1.Some? ==> WholeTurns * Turn <= r.1.value.totalRotation < (WholeTurns + 1.0) * Turn
  {
    if w.spinning then (w, None)
    else (w.(spinning := true), Some(Animation(w.rotation, TotalRotation(random), items)))
  }

  /** One animation frame `elapsed` milliseconds into the spin `a`, while
      the wheel draws `items`, with the winner reported to `onSpinEnd`, if
      any. Before the end the wheel moves and stays busy; at the end it rests
      on the full turn, is no longer busy, and reports the item of `items`
      under the pointer. */
  function Frame(w: WheelState, a: Animation, items: seq<RouletteItem>, elapsed: real): (r: (WheelState, Option<RouletteItem>))
    ensures elapsed < SpinDuration ==> r == (w.(rotation := CurrentRotation(a, elapsed)), None)
    ensures elapsed >= SpinDuration ==> !r.0.spinning
    ensures elapsed >= SpinDuration ==> r.0.rotation == a.startRotation + a.totalRotation
    ensures elapsed >= SpinDuration ==> r.1 == WinningItem(items, FinalAngle(a.startRotation + a.totalRotation))
  {
    var current := CurrentRotation(a, elapsed);
    if Progress(elapsed) < 1.0 then (w.(rotation := current), None)
    else (WheelState(current, false), WinningItem(items, FinalAngle(current)))
  }

  /** A finished spin over a wheel with a non-zero total weight always has a
      winner, so the `winner &&` guard before `onSpinEnd` never fails. */
  lemma FinishedSpinHasWinner(w: WheelState, a: Animation, items: seq<RouletteItem>, elapsed: real)
    requires TotalWeight(items) != 0.0
    requires elapsed >= SpinDuration
    ensures Frame(w, a, items, elapsed).1.Some?
  {
    var end := a.startRotation + a.totalRotation;
    FinalAngleReadsPointer(end);
    WinnerExists(items, FinalAngle(end));
  }

  /** The final frame reports the winner of the items it draws, and that
      item's arc on the resting wheel covers the pointer's direction. */
  lemma FrameReportsDrawnWinner(w: WheelState, a: Animation, items: seq<RouletteItem>, elapsed: real)
    requires elapsed >= SpinDuration && TotalWeight(items) != 0.0
    ensures var (rest, won) := Frame(w, a, items, elapsed);
      var i := Winner(items, FinalAngle(rest.rotation));
      && i.Some?
      && won == Some(items[i.value])
      && Layout(items, Turn, rest.rotation)[i.value].start <= 90.0 - Turn * ((90.0 - rest.rotation) / Turn).Floor as real
      && 90.0 - Turn * ((90.0 - rest.rotation) / Turn).Floor as real <= Layout(items, Turn, rest.rotation)[i.value].end
  {
    var rest := Frame(w, a, items, elapsed).0;
    FinalAngleReadsPointer(rest.rotation);
    WinnerExists(items, FinalAngle(rest.rotation));
    WinnerDrawnUnderPointer(items, rest.rotation);
  }

  /** The winner is the item drawn under the pointer: on a wheel turned by
      `rotation` degrees, the winning slice's arc covers the pointer's
      direction (90 degrees, give or take whole turns). */
  lemma WinnerDrawnUnderPointer(items: seq<RouletteItem>, rotation: real)
    requires Winner(items, FinalAngle(rotation)).Some?
    ensures var arc := Layout(items, Turn, rotation)[Winner(items, FinalAngle(rotation)).value];
      var pointer := 90.0 - Turn * ((90.0 - rotation) / Turn).Floor as real;
      arc.start <= pointer <= arc.end
  {
    var angle := FinalAngle(rotation);
    var i := Winner(items, angle).value;
    FinalAngleReadsPointer(rotation);
    WinnerInSlice(items, angle);
    LayoutArc(items, Turn, 0.0, i);
    LayoutArc(items, Turn, rotation, i);
  }

  /** `degrees * (Math.PI / 180)`, with `Math.PI / 180` as a parameter. */
  function ToRadians(degrees: real, radiansPerDegree: real): (rad: real)
    ensures degrees > 0.0 && radiansPerDegree > 0.0 ==> rad > 0.0
  {
    degrees * radiansPerDegree
  }

  /** The rotation the canvas draws with, in radians. */
  function DisplayedRadians(w: WheelState, radiansPerDegree: real): (rad: real)
  {
    ToRadians(w.rotation, radiansPerDegree)
  }

  /** A new spin starts where the previous one came to rest: its first frame
      draws the wheel exactly as it was drawn before the button was pressed. */
  lemma NextSpinStartsAtRest(w: WheelState, random: real, items: seq<RouletteItem>, radiansPerDegree: real)
    requires !w.spinning && 0.0 <= random < 1.0
    ensures var (busy, a) := Spin(w, random, items);
      DisplayedRadians(Frame(busy, a.value, items, 0.0).0, radiansPerDegree) == DisplayedRadians(w, radiansPerDegree)
  {}

  /** The frame as the component writes it: `setRotation(currentRotation *
      (Math.PI / 180))` stores radians in the state that the next `spin`
      reads back as degrees (`startRotation = rotation`), and the winner is
      looked up in the items captured when the button was pressed, whatever
      the wheel draws now. */
  function FrameAsWritten(w: WheelState, a: Animation, elapsed: real, radiansPerDegree: real): (r: (WheelState, Option<RouletteItem>))
    ensures elapsed < SpinDuration ==>
      r == (WheelState(ToRadians(CurrentRotation(a, elapsed), radiansPerDegree), w.spinning), None)
    ensures elapsed >= SpinDuration ==>
      r.0 == WheelState(ToRadians(a.startRotation + a.totalRotation, radiansPerDegree), false)
    ensures elapsed >= SpinDuration ==>
      r.1 == WinningItem(a.items, FinalAngle(a.startRotation + a.totalRotation))
  {
    var current := CurrentRotation(a, elapsed);
    if Progress(elapsed) < 1.0 then (WheelState(ToRadians(current, radiansPerDegree), w.spinning), None)
    else (WheelState(ToRadians(current, radiansPerDegree), false), WinningItem(a.items, FinalAngle(current)))
  }

  /** As written, a spin pressed on `captured` reports an item of `captured`
      even when the wheel has meanwhile been given other items (another
      roulette selected mid-spin): the item shown as the result is not on
      the wheel that is drawn. */
  lemma AsWrittenReportsCapturedItem(w: WheelState, random: real, captured: seq<RouletteItem>, drawn: seq<RouletteItem>, radiansPerDegree: real)
    requires !w.spinning && 0.0 <= random < 1.0
    requires TotalWeight(captured) != 0.0
    requires forall x :: x in captured ==> x !in drawn
    ensures var a := Spin(w, random, captured).1.value;
      var won := FrameAsWritten(w, a, SpinDuration, radiansPerDegree).1;
      won.Some? && won.value in captured && won.value !in drawn
  {
    var a := Spin(w, random, captured).1.value;
    FinalAngleReadsPointer(a.startRotation + a.totalRotation);
    var won := FrameAsWritten(w, a, SpinDuration, radiansPerDegree).1;
    var i: nat :| IsFirstReaching(captured, FinalAngle(a.startRotation + a.totalRotation), i) && won.value == captured[i];
    assert won.value in captured;
  }

  /** A rest at `1800 * k` radians and a redraw at `1800 * k * k` radians
      are `5 * (1 - k)` turns of `360 * k` radians apart: strictly between
      four and five turns when `0 < k < 0.2`. */
  lemma SnapBetweenFourAndFiveTurns(rest: real, first: real, k: real)
    requires 0.0 < k < 0.2
    requires rest == ToRadians(1800.0, k) && first == ToRadians(rest, k)
    ensures 4.0 * ToRadians(Turn, k) < rest - first < 5.0 * ToRadians(Turn, k)
  {
    var d := ToRadians(Turn, k);
    assert d == 360.0 * k;
    assert rest == 1800.0 * k;
    assert first == 1800.0 * k * k;
    assert rest - first == d * (5.0 - 5.0 * k);
    assert d * (5.0 - 5.0 * k) == 5.0 * d - 5.0 * d * k;
    assert 0.0 < d * k < d;
  }

  /** As written, a finished spin leaves the end angle stored in radians. */
  lemma AsWrittenRest(w: WheelState, a: Animation, radiansPerDegree: real)
    ensures FrameAsWritten(w, a, SpinDuration, radiansPerDegree).0
      == WheelState(ToRadians(a.startRotation + a.totalRotation, radiansPerDegree), false)
  {}

  /** As written, the first frame of a spin draws its start angle converted
      once more. */
  lemma AsWrittenFirstFrame(w: WheelState, a: Animation, radiansPerDegree: real)
    ensures FrameAsWritten(w, a, 0.0, radiansPerDegree).0.rotation == ToRadians(a.startRotation, radiansPerDegree)
  {}

  /** The two drawings around the second button press, as written: where a
      first spin of exactly five turns from rest leaves the wheel, and the
      first frame of the next spin (also of five turns). */
  function SecondSpinAsWritten(items: seq<RouletteItem>, radiansPerDegree: real): (r: (WheelState, WheelState))
    ensures r.0 == WheelState(ToRadians(1800.0, radiansPerDegree), false)
    ensures r.1.rotation == ToRadians(r.0.rotation, radiansPerDegree)
  {
    var press1 := Spin(Initial, 0.0, items);
    assert press1.1.value == Animation(0.0, 1800.0, items);
    AsWrittenRest(press1.0, press1.1.value, radiansPerDegree);
    var rest := FrameAsWritten(press1.0, press1.1.value, SpinDuration, radiansPerDegree).0;
    var press2 := Spin(rest, 0.0, items);
    assert press2.1.value.startRotation == rest.rotation;
    AsWrittenFirstFrame(press2.0, press2.1.value, radiansPerDegree);
    (rest, FrameAsWritten(press2.0, press2.1.value, 0.0, radiansPerDegree).0)
  }

  /** As written, the second spin jumps: after a first spin of five turns the
      state holds `1800 * k` (radians, drawn as such); the next spin starts
      from `1800 * k` read as degrees, so its first frame draws `1800 * k * k`
      radians. For `0 < k < 0.2` (`pi / 180` is about 0.0175) the two
      drawings are more than four and less than five turns apart, so not a
      whole number of turns: the wheel visibly snaps to another position. */
  lemma AsWrittenSecondSpinJumps(items: seq<RouletteItem>, radiansPerDegree: real)
    requires 0.0 < radiansPerDegree < 0.2
    ensures var (rest, first) := SecondSpinAsWritten(items, radiansPerDegree);
      && !rest.spinning
      && 4.0 * ToRadians(Turn, radiansPerDegree) < rest.rotation - first.rotation < 5.0 * ToRadians(Turn, radiansPerDegree)
  {
    var (rest, first) := SecondSpinAsWritten(items, radiansPerDegree);
    SnapBetweenFourAndFiveTurns(rest.rotation, first.rotation, radiansPerDegree);
  }
}

=== FILE: types.dfy ===
/** The two record shapes of the application (`src/types.ts`). */
module Types {

  /** One weighted entry of a wheel. `weight` is a JavaScript number; the
      model reads it as an exact real. */
  datatype RouletteItem = RouletteItem(id: string, text: string, weight: real, color: string)

  /** A named wheel: an ordered list of items. */
  datatype Roulette = Roulette(id: string, name: string, items: seq<RouletteItem>)

  /** The key items are filtered and updated by. */
  function ItemId(item: RouletteItem): string { item.id }

  /** The key roulettes are filtered and replaced by. */
  function RouletteId(r: Roulette): string { r.id }
}

=== FILE: wheel.dfy ===
/** The weighted wheel of `RouletteWheel`: the total weight, the partition of
    a full circle into slices proportional to the weights, and the lookup of
    the slice that rests under the pointer. Angles and weights are exact
    reals. */
module Wheel {
  import opened Wrappers
  import opened Seqs
  import opened Types
  import opened Angles

  /** The weights of `items`, in order. */
  function Weights(items: seq<RouletteItem>): (ws: seq<real>)
  {
    seq(|items|, i requires 0 <= i < |items| => items[i].weight)
  }

  /** `items.reduce((sum, item) => sum + item.weight, acc)`: a fold from the
      first item to the last. */
  function Reduce(items: seq<RouletteItem>, acc: real): (r: real)
    ensures r == acc + Sum(Weights(items))
  {
    if |items| == 0 then acc
    else
      assert Weights(items)[1..] == Weights(items[1..]);
      Reduce(items[1..], acc + items[0].weight)
  }

  /** The wheel's total weight, folded as the component folds it; it is the
      sum of the item weights. */
  function TotalWeight(items: seq<RouletteItem>): (t: real)
    ensures t == Sum(Weights(items))
  {
    Reduce(items, 0.0)
  }

  /** A non-empty wheel of positive weights has a positive total. */
  lemma TotalWeightPositive(items: seq<RouletteItem>)
    requires |items| > 0
    requires forall i :: 0 <= i < |items| ==> items[i].weight > 0.0
    ensures TotalWeight(items) > 0.0
  {
    SumPositive(Weights(items));
  }

  /** The angle of one item's slice out of a circle of `full`
      (`2 * Math.PI` when drawing, 360 when picking the winner). */
  function SliceAngle(item: RouletteItem, total: real, full: real): (angle: real)
    requires total != 0.0
  {
    full * item.weight / total
  }

  /** The angle the first `k` slices take up together. */
  function CumAngle(items: seq<RouletteItem>, total: real, full: real, k: nat): (angle: real)
    requires total != 0.0 && k <= |items|
  {
    full * Sum(Weights(items)[..k]) / total
  }

  lemma ScaleAdd(full: real, a: real, b: real, total: real)
    requires total != 0.0
    ensures full * (a + b) / total == full * a / total + full * b / total
  {
    assert full * (a + b) == full * a + full * b;
  }

  /** Each slice extends the running angle by its own size. */
  lemma CumAngleStep(items: seq<RouletteItem>, total: real, full: real, k: nat)
    requires total != 0.0 && k < |items|
    ensures CumAngle(items, total, full, k + 1) == CumAngle(items, total, full, k) + SliceAngle(items[k], total, full)
  {
    var w := Weights(items);
    assert w[..k + 1] == w[..k] + [w[k]];
    SumAppend(w[..k], [w[k]]);
    ScaleAdd(full, Sum(w[..k]), w[k], total);
  }

  /** No slices take up no angle; all of them take up the full circle. */
  lemma CumAngleEnds(items: seq<RouletteItem>, full: real)
    requires TotalWeight(items) != 0.0
    ensures CumAngle(items, TotalWeight(items), full, 0) == 0.0
    ensures CumAngle(items, TotalWeight(items), full, |items|) == full
  {
    assert Weights(items)[..|items|] == Weights(items);
  }

  /** The slice angles of all items, in order. */
  function SliceAngles(items: seq<RouletteItem>, total: real, full: real): (angles: seq<real>)
    requires total != 0.0
  {
    seq(|items|, i requires 0 <= i < |items| => SliceAngle(items[i], total, full))
  }

  lemma {:induction false} SliceAnglesPrefix(items: seq<RouletteItem>, total: real, full: real, k: nat)
    requires total != 0.0 && k <= |items|
    ensures Sum(SliceAngles(items, total, full)[..k]) == CumAngle(items, total, full, k)
  {
    var s := SliceAngles(items, total, full);
    if k == 0 {
      assert s[..0] == [];
    } else {
      SliceAnglesPrefix(items, total, full, k - 1);
      assert s[..k] == s[..k - 1] + [s[k - 1]];
      SumAppend(s[..k - 1], [s[k - 1]]);
      CumAngleStep(items, total, full, k - 1);
    }
  }

  /** Whenever the total weight is non-zero the slices add up to exactly one
      full circle: 360 degrees for the winner lookup, 2 pi radians for the
      drawing. */
  lemma SliceAnglesSum(items: seq<RouletteItem>, full: real)
    requires TotalWeight(items) != 0.0
    ensures Sum(SliceAngles(items, TotalWeight(items), full)) == full
  {
    var s := SliceAngles(items, TotalWeight(items), full);
    SliceAnglesPrefix(items, TotalWeight(items), full, |items|);
    assert s[..|items|] == s;
    CumAngleEnds(items, full);
  }

  /** The arc of one slice, from its start angle to its end angle. */
  datatype Arc = Arc(start: real, end: real)

  /** The drawing loop from item `i` on: each slice starts where the running
      angle `cursor` stands and moves it on by the slice's angle. */
  function LayoutFrom(items: seq<RouletteItem>, total: real, full: real, origin: real, i: nat, cursor: real): (arcs: seq<Arc>)
    requires total != 0.0 && i <= |items|
    requires cursor == origin + CumAngle(items, total, full, i)
    ensures |arcs| == |items| - i
    ensures forall j :: i <= j < |items| ==>
      arcs[j - i] == Arc(origin + CumAngle(items, total, full, j), origin + CumAngle(items, total, full, j + 1))
    decreases |items| - i
  {
    if i == |items| then []
    else
      var slice := SliceAngle(items[i], total, full);
      CumAngleStep(items, total, full, i);
      [Arc(cursor, cursor + slice)] + LayoutFrom(items, total, full, origin, i + 1, cursor + slice)
  }

  /** The slices of a wheel turned by `origin`, laid out one after another. */
  function Layout(items: seq<RouletteItem>, full: real, origin: real): (arcs: seq<Arc>)
    requires TotalWeight(items) != 0.0
  {
    CumAngleEnds(items, full);
    LayoutFrom(items, TotalWeight(items), full, origin, 0, origin)
  }

  lemma LayoutArc(items: seq<RouletteItem>, full: real, origin: real, i: nat)
    requires TotalWeight(items) != 0.0 && i < |items|
    ensures |Layout(items, full, origin)| == |items|
    ensures Layout(items, full, origin)[i] ==
      Arc(origin + CumAngle(items, TotalWeight(items), full, i), origin + CumAngle(items, TotalWeight(items), full, i + 1))
  {
    assert Layout(items, full, origin)[i] == Layout(items, full, origin)[i - 0];
  }

  /** The slices tile exactly one turn: the first starts at the wheel's
      rotation, each starts where the previous one ends, and the last ends
      one full circle after the first began. */
  lemma LayoutTilesCircle(items: seq<RouletteItem>, full: real, origin: real)
    requires TotalWeight(items) != 0.0
    ensures |Layout(items, full, origin)| == |items| > 0
    ensures Layout(items, full, origin)[0].start == origin
    ensures Layout(items, full, origin)[|items| - 1].end == origin + full
    ensures forall i :: 0 <= i < |items| - 1 ==> Layout(items, full, origin)[i].end == Layout(items, full, origin)[i + 1].start
  {
    var arcs := Layout(items, full, origin);
    CumAngleEnds(items, full);
    LayoutArc(items, full, origin, 0);
    LayoutArc(items, full, origin, |items| - 1);
    forall i | 0 <= i < |items| - 1 ensures arcs[i].end == arcs[i + 1].start {
      LayoutArc(items, full, origin, i);
      LayoutArc(items, full, origin, i + 1);
    }
  }

  /** Each slice is as wide as its item's share of the total weight. */
  lemma LayoutSliceWidths(items: seq<RouletteItem>, full: real, origin: real)
    requires TotalWeight(items) != 0.0
    ensures |Layout(items, full, origin)| == |items|
    ensures forall i :: 0 <= i < |items| ==>
      Layout(items, full, origin)[i].end - Layout(items, full, origin)[i].start == full * items[i].weight / TotalWeight(items)
  {
    var t := TotalWeight(items);
    var arcs := Layout(items, full, origin);
    LayoutArc(items, full, origin, 0);
    forall i | 0 <= i < |items| ensures arcs[i].end - arcs[i].start == full * items[i].weight / t {
      LayoutArc(items, full, origin, i);
      CumAngleStep(items, t, full, i);
    }
  }

  /** The `find` callback's test for item `i`: the angle under the pointer
      is at most the running angle once item `i`'s slice has been added. */
  predicate Reaches(items: seq<RouletteItem>, angle: real, i: nat)
    requires TotalWeight(items) != 0.0 && i < |items|
  {
    angle <= CumAngle(items, TotalWeight(items), Turn, i + 1)
  }

  /** Item `i` is the first whose running angle reaches `angle`. */
  predicate IsFirstReaching(items: seq<RouletteItem>, angle: real, i: nat)
    requires TotalWeight(items) != 0.0
  {
    && i < |items|
    && Reaches(items, angle, i)
    && forall j :: 0 <= j < i ==> !Reaches(items, angle, j)
  }

  /** The `find` from item `i` on, with `acc` the running angle of the items
      before it. */
  function FindFrom(items: seq<RouletteItem>, angle: real, i: nat, acc: real): (w: Option<nat>)
    requires TotalWeight(items) != 0.0 && i <= |items|
    requires acc == CumAngle(items, TotalWeight(items), Turn, i)
    requires forall j :: 0 <= j < i ==> !Reaches(items, angle, j)
    ensures w.Some? ==> i <= w.value && IsFirstReaching(items, angle, w.value)
    ensures w.None? ==> forall j :: 0 <= j < |items| ==> !Reaches(items, angle, j)
    decreases |items| - i
  {
    if i == |items| then None
    else
      var acc' := acc + SliceAngle(items[i], TotalWeight(items), Turn);
      CumAngleStep(items, TotalWeight(items), Turn, i);
      if angle <= acc' then Some(i)
      else FindFrom(items, angle, i + 1, acc')
  }

  /** The index of the winning item for the angle under the pointer, or
      `None` when the `find` finds nothing. With a zero total the source
      divides by zero; the model returns `None` there, which is what an empty
      wheel or a wheel of zero weights produces in the source. */
  function Winner(items: seq<RouletteItem>, angle: real): (w: Option<nat>)
    ensures w.Some? ==> TotalWeight(items) != 0.0 && IsFirstReaching(items, angle, w.value)
    ensures w.None? ==> TotalWeight(items) == 0.0 || forall j :: 0 <= j < |items| ==> !Reaches(items, angle, j)
  {
    if TotalWeight(items) == 0.0 then None
    else
      CumAngleEnds(items, Turn);
      FindFrom(items, angle, 0, 0.0)
  }

  /** With a non-zero total weight every angle of at most one turn has a
      winner: the last slice's running angle is 360. */
  lemma WinnerExists(items: seq<RouletteItem>, angle: real)
    requires TotalWeight(items) != 0.0
    requires angle <= Turn
    ensures Winner(items, angle).Some?
  {
    CumAngleEnds(items, Turn);
    assert Reaches(items, angle, |items| - 1);
  }

  /** The winner is the item whose slice, laid out from angle 0, contains
      the angle: its slice starts at or before it and ends at or after it. */
  lemma WinnerInSlice(items: seq<RouletteItem>, angle: real)
    requires Winner(items, angle).Some?
    requires angle >= 0.0
    ensures Layout(items, Turn, 0.0)[Winner(items, angle).value].start <= angle
    ensures angle <= Layout(items, Turn, 0.0)[Winner(items, angle).value].end
  {
    var i := Winner(items, angle).value;
    CumAngleEnds(items, Turn);
    LayoutArc(items, Turn, 0.0, i);
    if i > 0 {
      assert !Reaches(items, angle, i - 1);
    }
  }

  /** The item under the pointer at the end of a spin: the first item whose
      running angle reaches `angle`. Every angle of at most one turn has one
      when the total weight is non-zero; nothing is reported only when no
      item reaches the angle. */
  function WinningItem(items: seq<RouletteItem>, angle: real): (w: Option<RouletteItem>)
    ensures w.Some? ==>
      && TotalWeight(items) != 0.0
      && exists i: nat :: IsFirstReaching(items, angle, i) && w.value == items[i]
    ensures w.None? ==> TotalWeight(items) == 0.0 || forall j :: 0 <= j < |items| ==> !Reaches(items, angle, j)
    ensures TotalWeight(items) != 0.0 && angle <= Turn ==> w.Some?
  {
    assert TotalWeight(items) != 0.0 && angle <= Turn ==> Winner(items, angle).Some? by {
      if TotalWeight(items) != 0.0 && angle <= Turn { WinnerExists(items, angle); }
    }
    match Winner(items, angle)
    case None => None
    case Some(i) => Some(items[i])
  }

  /** The running angles of a wheel weighted 1, 1 and 2: 90, 180, 360. */
  lemma ExampleRunningAngles(items: seq<RouletteItem>)
    requires Weights(items) == [1.0, 1.0, 2.0]
    ensures TotalWeight(items) == 4.0
    ensures CumAngle(items, 4.0, Turn, 1) == 90.0
    ensures CumAngle(items, 4.0, Turn, 2) == 180.0
    ensures CumAngle(items, 4.0, Turn, 3) == 360.0
  {
    var w := Weights(items);
    assert Sum([2.0]) == 2.0 by { assert [2.0][1..] == []; }
    assert Sum([1.0, 2.0]) == 3.0 by { assert [1.0, 2.0][1..] == [2.0]; }
    assert Sum(w) == 4.0 by { assert w[1..] == [1.0, 2.0]; }
    assert Sum(w[..1]) == 1.0 by { assert w[..1] == [1.0] && [1.0][1..] == []; }
    assert Sum(w[..2]) == 2.0 by { assert w[..2] == [1.0, 1.0] && [1.0, 1.0][1..] == [1.0] && [1.0][1..] == []; }
    assert w[..3] == w;
  }

  /** Worked examples on a wheel weighted 1, 1 and 2. An angle on a boundary
      goes to the earlier item, because the test is `<=`: 90 picks the first
      item, 91 the second, 180 still the second, 181 the third. */
  lemma ExampleWinners(items: seq<RouletteItem>)
    requires Weights(items) == [1.0, 1.0, 2.0]
    ensures Winner(items, 0.0) == Some(0)
    ensures Winner(items, 90.0) == Some(0)
    ensures Winner(items, 91.0) == Some(1)
    ensures Winner(items, 180.0) == Some(1)
    ensures Winner(items, 181.0) == Some(2)
  {
    ExampleRunningAngles(items);
    assert Reaches(items, 180.0, 1) && Reaches(items, 91.0, 1) && !Reaches(items, 91.0, 0) && !Reaches(items, 180.0, 0);
    WinnerExists(items, 0.0);
    WinnerExists(items, 90.0);
    WinnerExists(items, 91.0);
    WinnerExists(items, 180.0);
    WinnerExists(items, 181.0);
  }
}

=== FILE: wrappers.dfy ===
/** An optional value: the model's stand-in for `undefined`, `null` and
    absent object keys. */
module Wrappers {

  datatype Option<+T> = None | Some(value: T) {

    /** The value held, or `default` when there is none. */
    function GetOr(default: T): T {
      match this
      case Some(v) => v
      case None => default
    }
  }
}
